=== FILE: README.md ===
# HubSpot MCP server: request building and tool dispatch, in Dafny

This project models the deterministic core of the HubSpot MCP server (`src/hubspot_mcp/server.py`):

- **Credential resolution** (`Auth`). `HubSpotClient._get_headers` always sends `Content-Type: application/json`. It adds a bearer `Authorization` header for the access token, or else for the API key. `_request` also adds `hapikey=<api key>` to the query, but only when the API key is the credential in use.
- **Resource verbs** (`Requests`). Each `HubSpotClient` verb (`get_contacts` … `search`) turns its arguments into exactly one request spec `(method, path, params?, body?)`.
- **Response normalisation** (`Transport`). The HTTP exchange is replaced by an abstract `Outcome`: either `Ok(status, body)` or `Fail(message)`. A status outside 2xx is an error. A 204 becomes the fixed `{success: true, message: "Operation completed successfully"}`. Any other 2xx body is returned unchanged.
- **Handlers** (`Handlers`). Each `_handle_*` method binds a tool's argument map to one verb call. This covers the defaults, the missing-key failures of `params[...]`, and the shorthand-field merge of `create_contact` and `create_company`.
- **Registry and dispatcher** (`Registry`, `Dispatcher`). The nine-tool catalogue of `_register_tools` is modelled in registration order, together with `get_available_tools` and `handle_tool_call`. An unknown name is rejected with `Unknown tool: <name>`. Everything else ends in a `Succeeded`/`Failed` envelope, and the call also records the one request it sent, if any.

JSON values are `Json.Value`. Objects are maps because Python compares dicts without regard to order. Python truthiness is modelled explicitly (`Json.Truthy`, `Auth.Given`). Python does not enforce the annotated argument types, so handler arguments and verb arguments are arbitrary JSON values. A path is a list of literal pieces and interpolated argument values. `Requests.PathText` renders it as the f-string would for string, integer, boolean and `None` arguments. The transport is the function parameter `send` of `Dispatcher.HandleToolCall`. `Scenarios` works through the concrete cases the repository's tests assert.

Behaviours of the code worth noting:
- `create_contact` and `create_company` declare a required key (`email`, `name`) that their handlers never enforce (`Registry.CreateRequiredNotEnforced`).
- httpx's `HTTPStatusError` text names the status and the URL. The model keeps the status and the body in `Errors.HttpStatus` and leaves the message text abstract.
- No registered tool exposes deletion: `delete_contact` is a client verb only, and the 204 rule lives in `_request`.

## Model

| member | source | states |
|---|---|---|
| Auth.Credential | src/hubspot_mcp/server.py:50-54 | the access token is used whenever it is non-empty; otherwise a non-empty API key; otherwise no credential |
| Auth.Headers | src/hubspot_mcp/server.py:44-56 | Content-Type is always application/json; Authorization is present iff some credential is given, and parsing it as `Bearer <token>` (RFC 6750, section 2.1) gives back exactly the preferred credential; no other header |
| Auth.QueryParams | src/hubspot_mcp/server.py:68-71 | `hapikey=<api key>` is added exactly when the API key is set and the access token is not; a missing params map becomes `{hapikey}`; every other parameter keeps its presence and value; otherwise params pass through unchanged |
| Auth.QueryKeyMatchesHeader | src/hubspot_mcp/server.py:44-71 | when `hapikey` appears in the query, the access token is unset, the bearer header is present, and the query carries the same credential as the header |
| Requests.ArgText | src/hubspot_mcp/server.py:107 | an interpolated argument renders as `str` would: a string as itself, `None` as `None`, a boolean as `True`/`False`, an integer as a minus sign iff it is negative followed by a numeral without leading zeros that reads back to the magnitude; lists and objects are not rendered |
| Requests.PathText | src/hubspot_mcp/server.py:206 | a path renders iff every one of its pieces does, and the rendering starts with the first piece's text |
| Requests.JoinedParts | src/hubspot_mcp/server.py:99-101 | the strings `",".join` iterates: a list's elements exactly when all are strings, or a string's one-character pieces in order; any other value cannot be joined |
| Requests.ListParams | src/hubspot_mcp/server.py:99-101 | the query has exactly `limit`, plus `properties` iff the argument is truthy; that value is the comma-join of its parts; a truthy value that cannot be joined is a TypeError |
| Requests.ListRequest | src/hubspot_mcp/server.py:93-103 | list verbs are GET on `/crm/v3/objects/<type>` with no body and the list query; they fail only when the property list cannot be joined |
| Requests.ListPropertiesRecoverable | src/hubspot_mcp/server.py:99-101 | for every list of property names the request is built; `properties` is sent iff the list is non-empty, and when it is non-empty and no name contains a comma, splitting the sent value on commas gives back the list |
| Requests.GetRequest | src/hubspot_mcp/server.py:105-107 | get is GET with neither params nor body, on the path `/crm/v3/objects/<type>/<id>` with the id rendered as `str` would |
| Requests.DeleteRequest | src/hubspot_mcp/server.py:129-131 | delete is DELETE with neither params nor body, on the object's rendered path |
| Requests.PropertiesBody | src/hubspot_mcp/server.py:109-115 | the create/update body has the single key `properties`, holding the caller's value unchanged |
| Requests.CreateRequest | src/hubspot_mcp/server.py:109-115 | create is POST on the collection path, no params, body exactly `{"properties": p}` |
| Requests.UpdateRequest | src/hubspot_mcp/server.py:117-127 | update is PATCH on the object's rendered path, no params, body exactly `{"properties": p}` |
| Requests.SearchBody | src/hubspot_mcp/server.py:200-203 | the search body has exactly `filterGroups` and `limit`; there is exactly one group, and it holds all the filters given |
| Requests.SearchRequest | src/hubspot_mcp/server.py:193-208 | search is POST with no params and the search body, on `/crm/v3/objects/<type>/search` with the object type rendered as `str` would |
| Requests.Spec | src/hubspot_mcp/server.py:93-208 | over all thirteen verbs: only list verbs fail, and only on an unjoinable property list; params are present iff the verb lists; a body is present iff the method is POST or PATCH; GET is used exactly by the list and get verbs |
| Requests.SpecDescribes | src/hubspot_mcp/server.py:93-208 | each of the thirteen verbs issues its own endpoint's request: list verbs GET the collection with the list query; get, delete and update use GET, DELETE and PATCH on the object's rendered path; create verbs POST `{"properties": p}` to the collection; search POSTs the search body to the object type's search path |
| Transport.NewClient | src/hubspot_mcp/server.py:35-42 | the client fixes its headers once, exactly those of `Auth.Headers`: Content-Type application/json, and Authorization iff a credential is given, carrying the preferred credential; no other header |
| Transport.Prepare | src/hubspot_mcp/server.py:58-79 | the request sent keeps the verb's method, path and body and the client's base URL and headers, and has exactly the query `QueryParams` gives for the configuration: unchanged without an API-key credential, otherwise the verb's parameters plus `hapikey` |
| Transport.NoContentResult | src/hubspot_mcp/server.py:82-83 | the 204 replacement has exactly `success: true` and `message: "Operation completed successfully"` |
| Transport.Normalise | src/hubspot_mcp/server.py:80-85 | success iff the transport answered with a 2xx status; a non-2xx status is an error carrying status and body; a transport failure stays a failure; 204 gives the fixed value; any other 2xx gives the body unchanged |
| Transport.NormaliseChangesOnlyNoContent | src/hubspot_mcp/server.py:82-85 | for a 2xx status, the value returned differs from the body received iff the status is 204 and the body is not already the fixed value |
| Handlers.MergeShorthand | src/hubspot_mcp/server.py:407-415 | assigning shorthand keys into `properties`: fails (TypeError) iff `properties` is not an object and some shorthand key is present; otherwise the keys are the original keys plus the present shorthand keys, each shorthand value taken from the arguments and every other key unchanged |
| Handlers.MergeShorthandIsOverride | src/hubspot_mcp/server.py:405-417 | the step-by-step merge equals one map override: the caller's properties overridden by the shorthand fields that are present |
| Handlers.HandleListContacts | src/hubspot_mcp/server.py:394-398 | `limit` defaults to 100 and `properties` to None; given values are passed unchanged |
| Handlers.HandleGetContact | src/hubspot_mcp/server.py:400-403 | fails with a missing-key error for `contact_id` iff that key is absent; otherwise calls get_contact with it |
| Handlers.HandleCreateContact | src/hubspot_mcp/server.py:405-417 | forwards the shorthand merge of the caller's `properties` (empty when absent) with `email`, `firstname`, `lastname`; never fails for a missing key, always succeeds without `properties`, and succeeds iff the merge does |
| Handlers.HandleUpdateContact | src/hubspot_mcp/server.py:419-423 | fails iff `contact_id` or `properties` is absent, naming `contact_id` first; otherwise forwards both unchanged |
| Handlers.HandleListCompanies | src/hubspot_mcp/server.py:425-428 | `limit` defaults to 100 and no property list is passed |
| Handlers.HandleGetCompany | src/hubspot_mcp/server.py:430-433 | fails with a missing-key error for `company_id` iff that key is absent; otherwise calls get_company with it |
| Handlers.HandleCreateCompany | src/hubspot_mcp/server.py:435-443 | forwards the caller's `properties` (empty when absent) with `name` written over it when given; never fails for a missing key, and succeeds iff the merge does |
| Handlers.HandleListDeals | src/hubspot_mcp/server.py:445-448 | `limit` defaults to 100 and no property list is passed |
| Handlers.Filter | src/hubspot_mcp/server.py:453-457 | the search filter has exactly `propertyName`, `operator` and `value`, holding the given values |
| Handlers.HandleSearch | src/hubspot_mcp/server.py:450-459 | fails iff one of `object_type`, `property`, `value` is absent, naming the first missing in that order; otherwise exactly one filter, operator defaulting to EQ, limit defaulting to 100 |
| Handlers.SearchToolRequest | src/hubspot_mcp/server.py:450-459 | with the three required keys present, the search tool sends a POST with no params, a body with one group holding the one filter, the limit (default 100), and the object type's search path |
| Handlers.ListToolQuery | src/hubspot_mcp/server.py:394-448 | the list tools without a property list send the query `{limit}` and nothing else, the limit defaulting to 100 |
| Handlers.Bind | src/hubspot_mcp/server.py:466-470 | calling a bound handler gives exactly its `_handle_*` method's result (so `get_contact` asks for the given `contact_id`, `update_contact` forwards id and properties unswapped); that result is a call of its own verb, or fails on a key the caller omitted (never for the create tools), or, for the create tools only, fails on assigning into a non-dict `properties`; the list tools never fail |
| Registry.Lookup | src/hubspot_mcp/server.py:463-466 | an entry is found iff some entry has the name; the one found has that name, and with distinct names it is the registered one |
| Registry.CatalogueShape | src/hubspot_mcp/server.py:223-392 | the registry holds the nine tools in registration order, under distinct names, each bound to its own `_handle_*` method (`list_contacts` to `_handle_list_contacts`, … `search` to `_handle_search`) |
| Registry.Descriptor | src/hubspot_mcp/server.py:479-483 | a discovery record has exactly `name`, `description` and `parameters`, and reading it back gives the entry's three values (the handler is left out) |
| Registry.AvailableTools | src/hubspot_mcp/server.py:476-485 | one record per entry, in registration order, each reading back to that entry's name, description and parameters, and nothing else |
| Registry.GetContactRequired | src/hubspot_mcp/server.py:245-258 | get_contact declares `{contact_id}` required, and its handler fails for a missing key iff a declared key is absent |
| Registry.UpdateContactRequired | src/hubspot_mcp/server.py:285-302 | update_contact declares `{contact_id, properties}` required, and its handler fails for a missing key iff a declared key is absent |
| Registry.GetCompanyRequired | src/hubspot_mcp/server.py:317-330 | get_company declares `{company_id}` required, and its handler fails for a missing key iff a declared key is absent |
| Registry.SearchRequired | src/hubspot_mcp/server.py:363-391 | search declares `{object_type, property, value}` required, and its handler fails for a missing key iff a declared key is absent |
| Registry.RequiredMatchesIndexed | src/hubspot_mcp/server.py:400-459 | for every registered tool whose handler indexes arguments with `[]`, the schema's required set is exactly the set of keys it enforces |
| Registry.MissingKeyIsDeclared | src/hubspot_mcp/server.py:394-459 | for every registered tool, a missing-key failure names a key that the schema declares required and the caller omitted |
| Registry.CreateRequiredNotEnforced | src/hubspot_mcp/server.py:405-443 | create_contact declares `{email}` required and create_company declares `{name}`, yet for every argument map neither handler fails for a missing key |
| Dispatcher.NewServer | src/hubspot_mcp/server.py:218-221 | the server's client is built from the configuration, and its registry is exactly the catalogue (names, descriptions, schemas and handlers, in order, names distinct), so every `Registry` fact about the catalogue holds of it |
| Dispatcher.Wrap | src/hubspot_mcp/server.py:469-474 | a value becomes a success envelope holding it unchanged; an error becomes a failure envelope holding it |
| Dispatcher.Run | src/hubspot_mcp/server.py:466-474 | a binding or join failure gives a failed envelope and no request; otherwise exactly the prepared request is sent, and the envelope wraps the normalised outcome |
| Dispatcher.HandleToolCall | src/hubspot_mcp/server.py:461-474 | rejection with `Unknown tool: <name>` iff the name is not registered; otherwise the registered handler's run, which is a failure whenever no request was sent |
| Dispatcher.EnvelopeJson | src/hubspot_mcp/server.py:471-474 | the returned object has exactly `success` and `result` (the value, unchanged) on success, and exactly `success` and `error` on failure |
| Dispatcher.SuccessIffTwoHundred | src/hubspot_mcp/server.py:461-474 | once a request is sent, the call succeeds iff the transport answered 2xx, and then (except for 204) the result is the body unchanged |
| Dispatcher.MissingArgumentNoRequest | src/hubspot_mcp/server.py:400-403 | a missing `[]`-indexed argument gives a failed envelope naming the key, and no request is sent |
| Text.IntText | src/hubspot_mcp/server.py:107 | `str(i)`: `-` exactly for negative numbers, then digits with no leading zero (and never `-0`), reading back to `i` |
| Text.NatTextValue | src/hubspot_mcp/server.py:107 | reading the printed digits of a natural number back in base ten gives the number |
| Text.SplitJoin | src/hubspot_mcp/server.py:101 | comma-joining a non-empty list of comma-free names and splitting on commas gives back the list |
| Scenarios.CredentialPrecedence | tests/test_server.py:56-66 | a token alone, or a token with a key, gives `Bearer <token>` and no `hapikey`; a key alone gives `Bearer <key>` and `{hapikey}`; empty strings give no header |
| Scenarios.ListContactsWithLimit | tests/test_server.py:80-87 | `get_contacts(limit=10)` is GET `/crm/v3/objects/contacts` with params exactly `{limit: 10}` |
| Scenarios.CreateContactFromShorthand | src/hubspot_mcp/server.py:405-417 | shorthand fields alone fully populate the forwarded properties |
| Scenarios.CreateContactShorthandOverrides | src/hubspot_mcp/server.py:405-417 | a shorthand `email` overrides the one in `properties`, and `lastname` is kept |
| Scenarios.DeleteContactNoContent | tests/test_server.py:146-160 | delete_contact("123") is DELETE on `/crm/v3/objects/contacts/123`, and a 204 becomes the fixed success value |
| Scenarios.SearchByEmail | tests/test_server.py:319-336 | the search tool given `object_type`, `property`, `value` and operator `EQ` builds one equality filter, with the limit defaulting to 100 |
| Scenarios.UnknownToolRejected | tests/test_server.py:338-342 | `unknown_tool` is rejected with `Unknown tool: unknown_tool` whatever the transport does |
| Scenarios.TransportFailureEnveloped | tests/test_server.py:344-354 | a failing transport under list_contacts gives a failed envelope carrying the failure |
| Scenarios.GetContactWithoutId | src/hubspot_mcp/server.py:400-403 | get_contact without `contact_id` gives a failed envelope and sends nothing |

## Left out

- HTTP transport: the `httpx.AsyncClient`, its 30-second timeout, async/await, and `close()`/`aclose()`. These are I/O and concurrency; the transport is the `send` parameter, which yields an `Outcome`.
- `urljoin`: URL resolution (section 5.2 of RFC 3986) is library behaviour. A request keeps the base URL and the path as a pair.
- JSON decoding of the response body: only the body of a non-204 2xx response is decoded (`response.json()`, server.py line 85), and the `Outcome` carries it already decoded; a decode failure there is a `Fail` outcome. For 204 and non-2xx responses the body is not decoded, and the model carries it as an arbitrary value. Floating-point numbers are not in `Json.Value`.
- Configuration loading (`HubSpotConfig` and pydantic-settings), logging, `run_stdio`, `main` and `demo.py`: these are configuration and I/O. The resolved `Auth.Config` is an input.
- Dispatcher.EnvelopeJson: the error text `str(e)` is the parameter `describe` and is not computed. Only the `Unknown tool: ` message is modelled exactly.
- Handlers.HandleCreateContact, Handlers.HandleCreateCompany: both handlers write the shorthand fields into the caller's own `properties` dict. The model builds a new map, so that aliasing is not modelled.
- Requests.PathText: a list or dict interpolated into a path is printed by Python with `repr`. That rendering is not modelled, and the path keeps the value itself.
- Requests.JoinedParts: a non-empty dict passed as `properties` to `get_contacts` is joined by Python over its keys in insertion order. The model's objects are unordered, so it reports a TypeError instead.
- Dict key order: objects and query parameters are maps, so the order of keys in bodies, schemas and queries (the wire order of `limit`, `properties` and `hapikey`) is not modelled. Registry order is modelled, as a sequence.

=== FILE: auth.dfy ===
/** Credential resolution of `HubSpotClient`: the headers fixed at construction and the
    `hapikey` query parameter added to every request when only an API key is configured. */
module Auth {
  import opened Wrappers
  import opened Json

  /** The resolved settings the client is built from; `None` is an unset variable. */
  datatype Config = Config(apiKey: Option<string>, accessToken: Option<string>, baseUrl: string)

  const ContentType := "Content-Type"
  const Authorization := "Authorization"
  const KeyParam := "hapikey"
  const BearerPrefix := "Bearer "

  /** Python truthiness of an `Optional[str]`: set and non-empty. */
  predicate Given(o: Option<string>) {
    o.Some? && o.value != ""
  }

  /** The credential a request authenticates with: the access token wins over the API key. */
  function Credential(c: Config): (r: Option<string>)
    ensures r.Some? <==> Given(c.accessToken) || Given(c.apiKey)
    ensures r.Some? ==> r.value != ""
    ensures Given(c.accessToken) ==> r == c.accessToken
    ensures !Given(c.accessToken) && Given(c.apiKey) ==> r == c.apiKey
  {
    if Given(c.accessToken) then c.accessToken
    else if Given(c.apiKey) then c.apiKey
    else None
  }

  /** The credential carried by an `Authorization` value in the `Bearer <token>` form of
      section 2.1 of RFC 6750, or `None` for any other value. */
  function ParseBearer(h: string): (r: Option<string>)
    ensures r.Some? ==> h == BearerPrefix + r.value
  {
    if |h| >= |BearerPrefix| && h[..|BearerPrefix|] == BearerPrefix then Some(h[|BearerPrefix|..])
    else None
  }

  /** `_get_headers`: JSON content type always; a bearer header exactly when some credential is given. */
  function Headers(c: Config): (h: map<string, string>)
    ensures ContentType in h && h[ContentType] == "application/json"
    ensures Authorization in h <==> Credential(c).Some?
    ensures h.Keys <= {ContentType, Authorization}
    ensures Authorization in h ==> ParseBearer(h[Authorization]) == Credential(c)
  {
    var base := map[ContentType := "application/json"];
    if Given(c.accessToken) then base[Authorization := BearerPrefix + c.accessToken.value]
    else if Given(c.apiKey) then base[Authorization := BearerPrefix + c.apiKey.value]
    else base
  }

  /** When `_request` puts the API key into the query string. */
  predicate KeyInQuery(c: Config) {
    Given(c.apiKey) && !Given(c.accessToken)
  }

  /** The query parameters `_request` sends for the `params` a verb passes: the API key is added as
      `hapikey` (a missing map becoming `{hapikey}`) exactly when it is the credential in use;
      every other parameter passes through unchanged. */
  function QueryParams(c: Config, params: Option<map<string, Value>>): (r: Option<map<string, Value>>)
    ensures !KeyInQuery(c) ==> r == params
    ensures KeyInQuery(c) ==> r.Some? && KeyParam in r.value && r.value[KeyParam] == Str(c.apiKey.value)
    ensures KeyInQuery(c) ==> forall k :: k != KeyParam ==>
      (k in r.value <==> params.Some? && k in params.value)
    ensures KeyInQuery(c) ==> forall k :: k != KeyParam && k in r.value ==> r.value[k] == params.value[k]
  {
    if KeyInQuery(c) then Some(params.GetOr(map[])[KeyParam := Str(c.apiKey.value)])
    else params
  }

  /** The access token never reaches the query string, and the key that does is the one the
      bearer header carries: the two channels agree on a single credential. */
  lemma QueryKeyMatchesHeader(c: Config, params: Option<map<string, Value>>)
    requires QueryParams(c, params).Some?
    requires KeyParam in QueryParams(c, params).value
    requires params.None? || KeyParam !in params.value
    ensures Authorization in Headers(c)
    ensures QueryParams(c, params).value[KeyParam] == Str(Credential(c).value)
    ensures Credential(c) == c.apiKey && !Given(c.accessToken)
  {
  }
}

=== FILE: dispatcher.dfy ===
/** `MCPServer.handle_tool_call`: look the tool up, run its handler against the transport, and wrap
    the outcome in a `{success, result | error}` envelope. Only an unknown name escapes the envelope. */
module Dispatcher {
  import opened Wrappers
  import opened Json
  import opened Errors
  import opened Auth
  import opened Requests
  import opened Transport
  import opened Handlers
  import opened Registry

  /** The server state: one client and the registry, both built at construction. */
  datatype Server = Server(client: Client, tools: seq<ToolEntry>)

  /** The result of a tool that ran: its value, or the error its handler raised. */
  datatype Envelope = Succeeded(result: Value) | Failed(error: Error)

  /** What a tool call produces, together with the one request it sent to the transport, if any. */
  datatype Dispatch = UnknownTool(message: string) | Answered(envelope: Envelope, issued: Option<HttpRequest>)

  const UnknownToolPrefix := "Unknown tool: "

  /** `MCPServer.__init__` with the configuration given rather than read from the environment. */
  function NewServer(c: Config): (s: Server)
    ensures s.client == NewClient(c)
    ensures s.tools == Tools()
    ensures Names(s.tools) == Names(Tools()) && DistinctNames(s.tools)
  {
    CatalogueShape();
    Server(NewClient(c), Tools())
  }

  /** The envelope for the value or error of a run. */
  function Wrap(r: Result<Value, Error>): (env: Envelope)
    ensures env.Succeeded? <==> r.Success?
    ensures r.Success? ==> env.result == r.value
    ensures r.Failure? ==> env.error == r.error
  {
    match r
    case Success(v) => Succeeded(v)
    case Failure(e) => Failed(e)
  }

  /** One handler run: bind the arguments, build the verb's request, send it, normalise the answer.
      A failure while binding or building sends nothing. */
  function Run(client: Client, h: Handler, args: Args, send: HttpRequest -> Outcome): (r: (Envelope, Option<HttpRequest>))
    ensures Bind(h, args).Failure? ==> r == (Failed(Bind(h, args).error), None)
    ensures Bind(h, args).Success? && Spec(Bind(h, args).value).Failure? ==>
      r == (Failed(Spec(Bind(h, args).value).error), None)
    ensures r.1.Some? <==> Bind(h, args).Success? && Spec(Bind(h, args).value).Success?
    ensures r.1.Some? ==> r.1.value == Prepare(client, Spec(Bind(h, args).value).value)
    ensures r.1.Some? ==> r.0 == Wrap(Normalise(send(r.1.value)))
  {
    match Bind(h, args)
    case Failure(e) => (Failed(e), None)
    case Success(call) =>
      match Spec(call)
      case Failure(e) => (Failed(e), None)
      case Success(spec) =>
        var req := Prepare(client, spec);
        (Wrap(Normalise(send(req))), Some(req))
  }

  /** `handle_tool_call`: an unregistered name is rejected with `Unknown tool: <name>` before any
      envelope; a registered one runs its handler, and every failure it meets becomes `Failed`. */
  function HandleToolCall(s: Server, name: string, args: Args, send: HttpRequest -> Outcome): (d: Dispatch)
    ensures d.UnknownTool? <==> Lookup(s.tools, name).None?
    ensures d.UnknownTool? ==> d.message == UnknownToolPrefix + name
    ensures d.Answered? ==> (d.envelope, d.issued) == Run(s.client, Lookup(s.tools, name).value.handler, args, send)
    ensures d.Answered? && d.issued.None? ==> d.envelope.Failed?
    ensures d.Answered? && d.issued.Some? ==> d.envelope == Wrap(Normalise(send(d.issued.value)))
  {
    match Lookup(s.tools, name)
    case None => UnknownTool(UnknownToolPrefix + name)
    case Some(entry) =>
      var (env, issued) := Run(s.client, entry.handler, args, send);
      Answered(env, issued)
  }

  /** The JSON object `handle_tool_call` returns for an envelope; `describe` stands for `str(e)`. */
  function EnvelopeJson(env: Envelope, describe: Error -> string): (j: Value)
    ensures j.Obj? && "success" in j.fields && j.fields["success"] == Bool(env.Succeeded?)
    ensures env.Succeeded? ==> j.fields.Keys == {"success", "result"} && j.fields["result"] == env.result
    ensures env.Failed? ==> j.fields.Keys == {"success", "error"} && j.fields["error"] == Str(describe(env.error))
  {
    match env
    case Succeeded(v) => Obj(map["success" := Bool(true), "result" := v])
    case Failed(e) => Obj(map["success" := Bool(false), "error" := Str(describe(e))])
  }

  /** A registered tool whose handler reaches the transport succeeds exactly when the transport
      answers with a 2xx status, and then returns the normalised body unchanged. */
  lemma SuccessIffTwoHundred(s: Server, name: string, args: Args, send: HttpRequest -> Outcome)
    requires HandleToolCall(s, name, args, send).Answered?
    requires HandleToolCall(s, name, args, send).issued.Some?
    ensures var d := HandleToolCall(s, name, args, send);
      var o := send(d.issued.value);
      && (d.envelope.Succeeded? <==> o.Ok? && IsSuccessStatus(o.status))
      && (d.envelope.Succeeded? && o.status != NoContent ==> d.envelope.result == o.body)
  {
  }

  /** A missing argument that a handler indexes directly fails inside the envelope, naming the key,
      and no request is sent. */
  lemma MissingArgumentNoRequest(s: Server, name: string, args: Args, send: HttpRequest -> Outcome)
    requires Lookup(s.tools, name).Some?
    requires MissingKeyFailure(Bind(Lookup(s.tools, name).value.handler, args))
    ensures HandleToolCall(s, name, args, send) ==
      Answered(Failed(Bind(Lookup(s.tools, name).value.handler, args).error), None)
  {
  }
}

=== FILE: handlers.dfy ===
/** The `MCPServer._handle_*` methods: each binds a tool's argument map to one resource-verb call. */
module Handlers {
  import opened Wrappers
  import opened Json
  import opened Errors
  import opened Requests

  /** A tool's argument map as the dispatcher receives it. */
  type Args = map<string, Value>

  /** The bound handler a registry entry refers to. */
  datatype Handler =
    | ListContactsTool
    | GetContactTool
    | CreateContactTool
    | UpdateContactTool
    | ListCompaniesTool
    | GetCompanyTool
    | CreateCompanyTool
    | ListDealsTool
    | SearchTool

  const ItemAssignment := "item assignment"
  const ContactShorthand := ["email", "firstname", "lastname"]
  const CompanyShorthand := ["name"]

  /** `params[key]`: a key the map lacks raises `KeyError`. */
  function Index(args: Args, key: string): (r: Result<Value, Error>)
    ensures r.Success? <==> key in args
    ensures r.Success? ==> r.value == args[key]
    ensures r.Failure? ==> r.error == MissingKey(key)
  {
    if key in args then Success(args[key]) else Failure(MissingKey(key))
  }

  /** The `if key in params: properties[key] = params[key]` steps, applied for each key in order.
      Assigning into a `properties` value that is not a dict raises `TypeError`, but only once some
      key is present; with no key present the value passes through whatever it is. */
  function MergeShorthand(properties: Value, args: Args, keys: seq<string>): (r: Result<Value, Error>)
    ensures r.Failure? <==> !properties.Obj? && exists i :: 0 <= i < |keys| && keys[i] in args
    ensures r.Failure? ==> r.error == TypeMismatch(ItemAssignment)
    ensures r.Success? && !properties.Obj? ==> r.value == properties
    ensures r.Success? && properties.Obj? ==> r.value.Obj?
    ensures r.Success? && properties.Obj? ==>
      r.value.fields.Keys == properties.fields.Keys + (set i | 0 <= i < |keys| && keys[i] in args :: keys[i])
    ensures r.Success? && properties.Obj? ==> forall k :: k in r.value.fields ==>
      r.value.fields[k] == if k in keys && k in args then args[k] else properties.fields[k]
    decreases |keys|
  {
    if |keys| == 0 then Success(properties)
    else if keys[0] !in args then MergeShorthand(properties, args, keys[1..])
    else if !properties.Obj? then Failure(TypeMismatch(ItemAssignment))
    else MergeShorthand(Obj(properties.fields[keys[0] := args[keys[0]]]), args, keys[1..])
  }

  /** `_handle_list_contacts`: `limit` defaults to 100 and `properties` to `None`. */
  function HandleListContacts(args: Args): (call: ClientCall)
    ensures call.GetContacts?
    ensures call.limit == if "limit" in args then args["limit"] else Int(DefaultLimit)
    ensures call.properties == if "properties" in args then args["properties"] else Null
  {
    GetContacts(Get(args, "limit", Int(DefaultLimit)), Get(args, "properties", Null))
  }

  /** `_handle_get_contact`: fails exactly when `contact_id` is missing. */
  function HandleGetContact(args: Args): (r: Result<ClientCall, Error>)
    ensures r.Failure? <==> "contact_id" !in args
    ensures r.Failure? ==> r.error == MissingKey("contact_id")
    ensures r.Success? ==> r.value == GetContact(args["contact_id"])
  {
    var id :- Index(args, "contact_id");
    Success(GetContact(id))
  }

  /** `_handle_create_contact`: the caller's `properties` (empty when absent) with `email`,
      `firstname` and `lastname` written over it when given. The schema's required `email` is
      never enforced: no missing key makes it fail. */
  function HandleCreateContact(args: Args): (r: Result<ClientCall, Error>)
    ensures r.Failure? ==> r.error == TypeMismatch(ItemAssignment)
    ensures "properties" !in args ==> r.Success?
    ensures r.Success? ==> r.value.CreateContact?
    ensures r.Success? <==> MergeShorthand(Get(args, "properties", Obj(map[])), args, ContactShorthand).Success?
    ensures r.Success? ==> Success(r.value.properties) == MergeShorthand(Get(args, "properties", Obj(map[])), args, ContactShorthand)
  {
    var merged :- MergeShorthand(Get(args, "properties", Obj(map[])), args, ContactShorthand);
    Success(CreateContact(merged))
  }

  /** `_handle_update_contact`: `contact_id` is looked up first, then `properties`. */
  function HandleUpdateContact(args: Args): (r: Result<ClientCall, Error>)
    ensures r.Failure? <==> "contact_id" !in args || "properties" !in args
    ensures "contact_id" !in args ==> r == Failure(MissingKey("contact_id"))
    ensures "contact_id" in args && "properties" !in args ==> r == Failure(MissingKey("properties"))
    ensures r.Success? ==> r.value == UpdateContact(args["contact_id"], args["properties"])
  {
    var id :- Index(args, "contact_id");
    var properties :- Index(args, "properties");
    Success(UpdateContact(id, properties))
  }

  /** `_handle_list_companies`: `limit` defaults to 100; no property list is passed. */
  function HandleListCompanies(args: Args): (call: ClientCall)
    ensures call.GetCompanies? && !Truthy(call.properties)
    ensures call.limit == if "limit" in args then args["limit"] else Int(DefaultLimit)
  {
    GetCompanies(Get(args, "limit", Int(DefaultLimit)), Null)
  }

  /** `_handle_get_company`: fails exactly when `company_id` is missing. */
  function HandleGetCompany(args: Args): (r: Result<ClientCall, Error>)
    ensures r.Failure? <==> "company_id" !in args
    ensures r.Failure? ==> r.error == MissingKey("company_id")
    ensures r.Success? ==> r.value == GetCompany(args["company_id"])
  {
    var id :- Index(args, "company_id");
    Success(GetCompany(id))
  }

  /** `_handle_create_company`: the caller's `properties` (empty when absent) with `name` written
      over it when given; the schema's required `name` is never enforced. */
  function HandleCreateCompany(args: Args): (r: Result<ClientCall, Error>)
    ensures r.Failure? ==> r.error == TypeMismatch(ItemAssignment)
    ensures "properties" !in args ==> r.Success?
    ensures r.Success? ==> r.value.CreateCompany?
    ensures r.Success? <==> MergeShorthand(Get(args, "properties", Obj(map[])), args, CompanyShorthand).Success?
    ensures r.Success? ==> Success(r.value.properties) == MergeShorthand(Get(args, "properties", Obj(map[])), args, CompanyShorthand)
  {
    var merged :- MergeShorthand(Get(args, "properties", Obj(map[])), args, CompanyShorthand);
    Success(CreateCompany(merged))
  }

  /** `_handle_list_deals`: `limit` defaults to 100; no property list is passed. */
  function HandleListDeals(args: Args): (call: ClientCall)
    ensures call.GetDeals? && !Truthy(call.properties)
    ensures call.limit == if "limit" in args then args["limit"] else Int(DefaultLimit)
  {
    GetDeals(Get(args, "limit", Int(DefaultLimit)), Null)
  }

  /** The single filter `_handle_search` builds. */
  function Filter(property: Value, operator: Value, value: Value): (f: Value)
    ensures f.Obj? && f.fields.Keys == {"propertyName", "operator", "value"}
    ensures f.fields["propertyName"] == property && f.fields["operator"] == operator && f.fields["value"] == value
  {
    Obj(map["propertyName" := property, "operator" := operator, "value" := value])
  }

  /** `_handle_search`: one filter on `property` with `operator` (default `EQ`) and `value`,
      `limit` defaulting to 100. Keys are looked up in the order `object_type`, `property`, `value`. */
  function HandleSearch(args: Args): (r: Result<ClientCall, Error>)
    ensures r.Failure? <==> "object_type" !in args || "property" !in args || "value" !in args
    ensures "object_type" !in args ==> r == Failure(MissingKey("object_type"))
    ensures "object_type" in args && "property" !in args ==> r == Failure(MissingKey("property"))
    ensures "object_type" in args && "property" in args && "value" !in args ==> r == Failure(MissingKey("value"))
    ensures r.Success? ==> r.value.Search? && r.value.objectType == args["object_type"] && |r.value.filters| == 1
    ensures r.Success? ==> r.value.filters[0] == Filter(args["property"], Get(args, "operator", Str("EQ")), args["value"])
    ensures r.Success? ==> r.value.limit == if "limit" in args then args["limit"] else Int(DefaultLimit)
  {
    var objectType :- Index(args, "object_type");
    var property :- Index(args, "property");
    var operator := Get(args, "operator", Str("EQ"));
    var value :- Index(args, "value");
    Success(Search(objectType, [Filter(property, operator, value)], Get(args, "limit", Int(DefaultLimit))))
  }

  /** The resource verb each handler calls into. */
  predicate Binds(h: Handler, call: ClientCall) {
    match h
    case ListContactsTool => call.GetContacts?
    case GetContactTool => call.GetContact?
    case CreateContactTool => call.CreateContact?
    case UpdateContactTool => call.UpdateContact?
    case ListCompaniesTool => call.GetCompanies?
    case GetCompanyTool => call.GetCompany?
    case CreateCompanyTool => call.CreateCompany?
    case ListDealsTool => call.GetDeals?
    case SearchTool => call.Search?
  }

  predicate IsListTool(h: Handler) {
    h.ListContactsTool? || h.ListCompaniesTool? || h.ListDealsTool?
  }

  predicate IsCreateTool(h: Handler) {
    h.CreateContactTool? || h.CreateCompanyTool?
  }

  /** Calls the handler a registry entry is bound to. A handler either yields its own verb's call,
      or fails on a key the caller left out, or (the two create handlers only) on assigning
      shorthand fields into a `properties` value that is not a dict. The list handlers never fail. */
  function Bind(h: Handler, args: Args): (r: Result<ClientCall, Error>)
    ensures r.Success? ==> Binds(h, r.value)
    ensures IsListTool(h) ==> r.Success?
    ensures r.Failure? && r.error.MissingKey? ==> r.error.key !in args && !IsCreateTool(h)
    ensures r.Failure? && !r.error.MissingKey? ==> r.error == TypeMismatch(ItemAssignment) && IsCreateTool(h)
    ensures h.ListContactsTool? ==> r == Success(HandleListContacts(args))
    ensures h.GetContactTool? ==> r == HandleGetContact(args)
    ensures h.CreateContactTool? ==> r == HandleCreateContact(args)
    ensures h.UpdateContactTool? ==> r == HandleUpdateContact(args)
    ensures h.ListCompaniesTool? ==> r == Success(HandleListCompanies(args))
    ensures h.GetCompanyTool? ==> r == HandleGetCompany(args)
    ensures h.CreateCompanyTool? ==> r == HandleCreateCompany(args)
    ensures h.ListDealsTool? ==> r == Success(HandleListDeals(args))
    ensures h.SearchTool? ==> r == HandleSearch(args)
  {
    match h
    case ListContactsTool => Success(HandleListContacts(args))
    case GetContactTool => HandleGetContact(args)
    case CreateContactTool => HandleCreateContact(args)
    case UpdateContactTool => HandleUpdateContact(args)
    case ListCompaniesTool => Success(HandleListCompanies(args))
    case GetCompanyTool => HandleGetCompany(args)
    case CreateCompanyTool => HandleCreateCompany(args)
    case ListDealsTool => Success(HandleListDeals(args))
    case SearchTool => HandleSearch(args)
  }

  /** The shorthand merge agrees with a one-step reference: the caller's map overridden by the
      shorthand fields that are present. Keys outside the shorthand list are untouched. */
  lemma MergeShorthandIsOverride(fields: map<string, Value>, args: Args, keys: seq<string>)
    ensures MergeShorthand(Obj(fields), args, keys) ==
      Success(Obj(fields + map k | k in keys && k in args :: args[k]))
  {
    var r := MergeShorthand(Obj(fields), args, keys);
    var expected := fields + map k | k in keys && k in args :: args[k];
    assert r.Success?;
    forall k | k in expected
      ensures k in r.value.fields && r.value.fields[k] == expected[k]
    {
      if k !in fields {
        var i :| 0 <= i < |keys| && keys[i] == k;
        assert keys[i] in args;
      }
    }
    assert r.value.fields.Keys == expected.Keys;
    assert r.value.fields == expected;
  }

  /** The request the search tool issues: a POST to the object type's search path whose body holds
      exactly one filter group with the one filter built from the arguments. */
  lemma SearchToolRequest(args: Args)
    requires "object_type" in args && "property" in args && "value" in args
    ensures Bind(SearchTool, args).Success? && Spec(Bind(SearchTool, args).value).Success?
    ensures var spec := Spec(Bind(SearchTool, args).value).value;
      && spec.verb == POST && spec.params.None? && spec.body.Some?
      && spec.body.value.fields["filterGroups"] ==
           Arr([Obj(map["filters" := Arr([Filter(args["property"], Get(args, "operator", Str("EQ")), args["value"])])])])
      && spec.body.value.fields["limit"] == Get(args, "limit", Int(DefaultLimit))
      && (args["object_type"].Str? ==> PathText(spec.path) == Some(ObjectsRoot + args["object_type"].s + "/search"))
  {
  }

  /** The list tools without a property list send `{limit}` and nothing else, the limit defaulting to 100. */
  lemma ListToolQuery(h: Handler, args: Args)
    requires h.ListContactsTool? || h.ListCompaniesTool? || h.ListDealsTool?
    requires h.ListContactsTool? ==> "properties" !in args
    ensures Bind(h, args).Success? && Spec(Bind(h, args).value).Success?
    ensures Spec(Bind(h, args).value).value.params == Some(map["limit" := Get(args, "limit", Int(DefaultLimit))])
  {
  }
}

=== FILE: json.dfy ===
/** Decoded JSON values as the server handles them (Python dicts, lists, str, int, bool, None). */
module Json {

  /** A JSON value. Objects are maps: Python compares dicts without regard to key order. */
  datatype Value =
    | Null
    | Bool(b: bool)
    | Int(n: int)
    | Str(s: string)
    | Arr(items: seq<Value>)
    | Obj(fields: map<string, Value>)

  /** Python truthiness: `None`, `False`, `0`, `""`, `[]` and `{}` are false, everything else true. */
  predicate Truthy(v: Value) {
    match v
    case Null => false
    case Bool(b) => b
    case Int(n) => n != 0
    case Str(s) => s != ""
    case Arr(items) => items != []
    case Obj(fields) => fields != map[]
  }

  /** `m.get(key, default)` on an argument dict. */
  function Get(m: map<string, Value>, key: string, default: Value): Value {
    if key in m then m[key] else default
  }

  /** A JSON array of strings. */
  function Strs(ss: seq<string>): (v: Value)
    ensures v.Arr? && |v.items| == |ss|
    ensures forall i :: 0 <= i < |ss| ==> v.items[i] == Str(ss[i])
  {
    Arr(seq(|ss|, i requires 0 <= i < |ss| => Str(ss[i])))
  }
}

/** The failures an operation can raise before the dispatcher turns them into an error envelope. */
module Errors {
  import opened Json

  datatype Error =
    /** `KeyError` from indexing an argument dict with a key it lacks. */
    | MissingKey(key: string)
    /** `TypeError` from applying an operation to a value of the wrong shape. */
    | TypeMismatch(operation: string)
    /** `httpx.HTTPStatusError`: the remote API answered with a status outside 2xx. */
    | HttpStatus(status: int, body: Value)
    /** Any other transport failure (connection, timeout, undecodable body). */
    | Transport(message: string)
}

=== FILE: registry.dfy ===
/** `MCPServer._register_tools` and `get_available_tools`: the fixed catalogue of nine tools,
    each a description, a JSON-Schema-like parameter object and a bound handler. */
module Registry {
  import opened Wrappers
  import opened Json
  import opened Errors
  import opened Handlers

  datatype ToolEntry = ToolEntry(name: string, description: string, parameters: Value, handler: Handler)

  /** A schema property with its type and description. */
  function Field(kind: string, description: string): Value {
    Obj(map["type" := Str(kind), "description" := Str(description)])
  }

  /** An integer property with a default. */
  function LimitField(description: string): Value {
    Obj(map["type" := Str("integer"), "description" := Str(description), "default" := Int(100)])
  }

  /** An object schema without a `required` list. */
  function Schema(properties: map<string, Value>): Value {
    Obj(map["type" := Str("object"), "properties" := Obj(properties)])
  }

  /** An object schema declaring the keys a caller must supply. */
  function SchemaRequiring(properties: map<string, Value>, required: seq<string>): Value {
    Obj(map["type" := Str("object"), "properties" := Obj(properties), "required" := Strs(required)])
  }

  function ListContactsEntry(): ToolEntry {
    ToolEntry("list_contacts", "List contacts from HubSpot CRM",
      Schema(map[
        "limit" := LimitField("Maximum number of contacts to retrieve"),
        "properties" := Obj(map[
          "type" := Str("array"),
          "items" := Obj(map["type" := Str("string")]),
          "description" := Str("List of properties to retrieve for each contact")])]),
      ListContactsTool)
  }

  const GetContactFields := map["contact_id" := Field("string", "The ID of the contact to retrieve")]

  function GetContactEntry(): ToolEntry {
    ToolEntry("get_contact", "Get a specific contact by ID",
      SchemaRequiring(GetContactFields, ["contact_id"]), GetContactTool)
  }

  const CreateContactFields := map[
    "email" := Field("string", "Email address of the contact"),
    "firstname" := Field("string", "First name of the contact"),
    "lastname" := Field("string", "Last name of the contact"),
    "properties" := Field("object", "Additional properties for the contact")]

  function CreateContactEntry(): ToolEntry {
    ToolEntry("create_contact", "Create a new contact in HubSpot",
      SchemaRequiring(CreateContactFields, ["email"]), CreateContactTool)
  }

  const UpdateContactFields := map[
    "contact_id" := Field("string", "The ID of the contact to update"),
    "properties" := Field("object", "Properties to update")]

  function UpdateContactEntry(): ToolEntry {
    ToolEntry("update_contact", "Update an existing contact",
      SchemaRequiring(UpdateContactFields, ["contact_id", "properties"]), UpdateContactTool)
  }

  function ListCompaniesEntry(): ToolEntry {
    ToolEntry("list_companies", "List companies from HubSpot CRM",
      Schema(map["limit" := LimitField("Maximum number of companies to retrieve")]), ListCompaniesTool)
  }

  const GetCompanyFields := map["company_id" := Field("string", "The ID of the company to retrieve")]

  function GetCompanyEntry(): ToolEntry {
    ToolEntry("get_company", "Get a specific company by ID",
      SchemaRequiring(GetCompanyFields, ["company_id"]), GetCompanyTool)
  }

  const CreateCompanyFields := map[
    "name" := Field("string", "Name of the company"),
    "properties" := Field("object", "Additional properties for the company")]

  function CreateCompanyEntry(): ToolEntry {
    ToolEntry("create_company", "Create a new company in HubSpot",
      SchemaRequiring(CreateCompanyFields, ["name"]), CreateCompanyTool)
  }

  function ListDealsEntry(): ToolEntry {
    ToolEntry("list_deals", "List deals from HubSpot CRM",
      Schema(map["limit" := LimitField("Maximum number of deals to retrieve")]), ListDealsTool)
  }

  const SearchFields := map[
    "object_type" := Obj(map[
      "type" := Str("string"),
      "description" := Str("Type of object to search (contacts, companies, deals)"),
      "enum" := Strs(["contacts", "companies", "deals"])]),
    "property" := Field("string", "Property to search on"),
    "value" := Field("string", "Value to search for"),
    "operator" := Obj(map[
      "type" := Str("string"),
      "description" := Str("Search operator"),
      "default" := Str("EQ"),
      "enum" := Strs(["EQ", "NEQ", "LT", "LTE", "GT", "GTE", "CONTAINS"])])]

  function SearchEntry(): ToolEntry {
    ToolEntry("search", "Search for objects in HubSpot CRM",
      SchemaRequiring(SearchFields, ["object_type", "property", "value"]), SearchTool)
  }

  /** The catalogue, in registration order. */
  function Tools(): seq<ToolEntry> {
    [ListContactsEntry(), GetContactEntry(), CreateContactEntry(), UpdateContactEntry(), ListCompaniesEntry(),
     GetCompanyEntry(), CreateCompanyEntry(), ListDealsEntry(), SearchEntry()]
  }

  function Names(tools: seq<ToolEntry>): (names: seq<string>)
    ensures |names| == |tools|
    ensures forall i :: 0 <= i < |tools| ==> names[i] == tools[i].name
  {
    seq(|tools|, i requires 0 <= i < |tools| => tools[i].name)
  }

  /** No two entries share a name, as the keys of a dict cannot. */
  predicate DistinctNames(tools: seq<ToolEntry>) {
    forall i, j :: 0 <= i < j < |tools| ==> tools[i].name != tools[j].name
  }

  /** `self.tools[name]`: the entry registered under `name`, if any. */
  function Lookup(tools: seq<ToolEntry>, name: string): (r: Option<ToolEntry>)
    ensures r.Some? <==> exists i :: 0 <= i < |tools| && tools[i].name == name
    ensures r.Some? ==> r.value.name == name && r.value in tools
    ensures DistinctNames(tools) ==> forall i :: 0 <= i < |tools| && tools[i].name == name ==> r == Some(tools[i])
    decreases |tools|
  {
    if |tools| == 0 then None
    else if tools[0].name == name then Some(tools[0])
    else
      var r := Lookup(tools[1..], name);
      assert forall i :: 1 <= i < |tools| ==> tools[i] == tools[1..][i - 1];
      r
  }

  /** The keys a parameter schema lists under `required`; none when the list is absent. */
  function RequiredKeys(parameters: Value): set<string> {
    if parameters.Obj? && "required" in parameters.fields && parameters.fields["required"].Arr? then
      var items := parameters.fields["required"].items;
      set i | 0 <= i < |items| && items[i].Str? :: items[i].s
    else {}
  }

  /** The discovery record of one entry: its name, description and parameters, without the handler. */
  function Descriptor(e: ToolEntry): (d: Value)
    ensures d.Obj? && d.fields.Keys == {"name", "description", "parameters"}
    ensures ReadDescriptor(d) == Some((e.name, e.description, e.parameters))
  {
    Obj(map["name" := Str(e.name), "description" := Str(e.description), "parameters" := e.parameters])
  }

  /** Reads a discovery record back into its name, description and parameters. */
  function ReadDescriptor(d: Value): Option<(string, string, Value)> {
    if d.Obj? && "name" in d.fields && d.fields["name"].Str?
       && "description" in d.fields && d.fields["description"].Str? && "parameters" in d.fields
    then Some((d.fields["name"].s, d.fields["description"].s, d.fields["parameters"]))
    else None
  }

  /** `get_available_tools`: one record per entry, in registration order. */
  function AvailableTools(tools: seq<ToolEntry>): (r: seq<Value>)
    ensures |r| == |tools|
    ensures forall i :: 0 <= i < |tools| ==> r[i].Obj? && r[i].fields.Keys == {"name", "description", "parameters"}
    ensures forall i :: 0 <= i < |tools| ==>
      ReadDescriptor(r[i]) == Some((tools[i].name, tools[i].description, tools[i].parameters))
    decreases |tools|
  {
    if |tools| == 0 then []
    else
      var rest := AvailableTools(tools[1..]);
      assert forall i :: 1 <= i < |tools| ==> tools[i] == tools[1..][i - 1];
      [Descriptor(tools[0])] + rest
  }

  /** The registry holds the nine tools, in this order, under distinct names, each bound to its
      own handler. */
  lemma CatalogueShape()
    ensures Names(Tools()) == ["list_contacts", "get_contact", "create_contact", "update_contact",
                               "list_companies", "get_company", "create_company", "list_deals", "search"]
    ensures seq(|Tools()|, i requires 0 <= i < |Tools()| => Tools()[i].handler) ==
      [ListContactsTool, GetContactTool, CreateContactTool, UpdateContactTool,
       ListCompaniesTool, GetCompanyTool, CreateCompanyTool, ListDealsTool, SearchTool]
    ensures DistinctNames(Tools())
  {
  }

  /** A schema built with a `required` list declares exactly the keys of that list. */
  lemma RequiredOfSchema(properties: map<string, Value>, required: seq<string>)
    ensures RequiredKeys(SchemaRequiring(properties, required)) == set k | k in required
  {
  }

  /** A handler failed because an argument it indexes directly was missing. */
  predicate MissingKeyFailure(r: Result<Requests.ClientCall, Error>) {
    r.Failure? && r.error.MissingKey?
  }

  /** The handlers that index arguments with `[]` and declare exactly those keys as required. */
  predicate IndexesRequired(h: Handler) {
    h.GetContactTool? || h.GetCompanyTool? || h.UpdateContactTool? || h.SearchTool?
  }

  lemma GetContactRequired(args: Args)
    ensures RequiredKeys(GetContactEntry().parameters) == {"contact_id"}
    ensures MissingKeyFailure(Bind(GetContactTool, args)) <==> !(RequiredKeys(GetContactEntry().parameters) <= args.Keys)
  {
    RequiredOfSchema(GetContactFields, ["contact_id"]);
    assert (set k | k in ["contact_id"]) == {"contact_id"};
  }

  lemma GetCompanyRequired(args: Args)
    ensures RequiredKeys(GetCompanyEntry().parameters) == {"company_id"}
    ensures MissingKeyFailure(Bind(GetCompanyTool, args)) <==> !(RequiredKeys(GetCompanyEntry().parameters) <= args.Keys)
  {
    RequiredOfSchema(GetCompanyFields, ["company_id"]);
    assert (set k | k in ["company_id"]) == {"company_id"};
  }

  lemma UpdateContactRequired(args: Args)
    ensures RequiredKeys(UpdateContactEntry().parameters) == {"contact_id", "properties"}
    ensures MissingKeyFailure(Bind(UpdateContactTool, args)) <==> !(RequiredKeys(UpdateContactEntry().parameters) <= args.Keys)
  {
    RequiredOfSchema(UpdateContactFields, ["contact_id", "properties"]);
    assert (set k | k in ["contact_id", "properties"]) == {"contact_id", "properties"};
  }

  lemma SearchRequired(args: Args)
    ensures RequiredKeys(SearchEntry().parameters) == {"object_type", "property", "value"}
    ensures MissingKeyFailure(Bind(SearchTool, args)) <==> !(RequiredKeys(SearchEntry().parameters) <= args.Keys)
  {
    RequiredOfSchema(SearchFields, ["object_type", "property", "value"]);
    assert (set k | k in ["object_type", "property", "value"]) == {"object_type", "property", "value"};
  }

  /** Each handler is bound by exactly one entry. */
  lemma EntryOfHandler(e: ToolEntry)
    requires e in Tools()
    ensures e == Tools()[HandlerIndex(e.handler)]
  {
  }

  /** The position of the entry bound to a handler. */
  function HandlerIndex(h: Handler): (i: nat)
    ensures i < |Tools()| && Tools()[i].handler == h
  {
    match h
    case ListContactsTool => 0
    case GetContactTool => 1
    case CreateContactTool => 2
    case UpdateContactTool => 3
    case ListCompaniesTool => 4
    case GetCompanyTool => 5
    case CreateCompanyTool => 6
    case ListDealsTool => 7
    case SearchTool => 8
  }

  /** For `get_contact`, `get_company`, `update_contact` and `search`, the schema's `required` list is
      exactly what the handler enforces: it fails on a missing key iff some required key is absent. */
  lemma RequiredMatchesIndexed(e: ToolEntry, args: Args)
    requires e in Tools() && IndexesRequired(e.handler)
    ensures MissingKeyFailure(Bind(e.handler, args)) <==> !(RequiredKeys(e.parameters) <= args.Keys)
  {
    EntryOfHandler(e);
    match e.handler
    case GetContactTool => GetContactRequired(args);
    case GetCompanyTool => GetCompanyRequired(args);
    case UpdateContactTool => UpdateContactRequired(args);
    case SearchTool => SearchRequired(args);
  }

  /** A missing-key failure always names a key the schema declares required and the caller omitted. */
  lemma MissingKeyIsDeclared(e: ToolEntry, args: Args)
    requires e in Tools() && MissingKeyFailure(Bind(e.handler, args))
    ensures Bind(e.handler, args).error.key in RequiredKeys(e.parameters)
    ensures Bind(e.handler, args).error.key !in args
  {
    EntryOfHandler(e);
    match e.handler
    case GetContactTool => GetContactRequired(args);
    case GetCompanyTool => GetCompanyRequired(args);
    case UpdateContactTool => UpdateContactRequired(args);
    case SearchTool => SearchRequired(args);
    case _ =>
  }

  /** `create_contact` and `create_company` declare a required key their handlers never look up:
      whatever the arguments, they do not fail for a missing key. */
  lemma CreateRequiredNotEnforced(e: ToolEntry, args: Args)
    requires e in Tools() && (e.handler.CreateContactTool? || e.handler.CreateCompanyTool?)
    ensures RequiredKeys(e.parameters) == if e.handler.CreateContactTool? then {"email"} else {"name"}
    ensures !MissingKeyFailure(Bind(e.handler, args))
  {
    EntryOfHandler(e);
    if e.handler.CreateContactTool? {
      RequiredOfSchema(CreateContactFields, ["email"]);
      assert (set k | k in ["email"]) == {"email"};
    } else {
      RequiredOfSchema(CreateCompanyFields, ["name"]);
      assert (set k | k in ["name"]) == {"name"};
    }
  }
}

=== FILE: requests.dfy ===
/** The resource verbs of `HubSpotClient`: each call becomes exactly one request
    `(method, path, params?, body?)` for `_request`. */
module Requests {
  import opened Wrappers
  import opened Json
  import opened Errors
  import Text

  datatype Method = GET | POST | PATCH | DELETE

  /** A piece of an f-string path: literal text, or an argument value interpolated with `str()`. */
  datatype Segment = Lit(text: string) | Arg(value: Value)

  type Path = seq<Segment>

  /** What a verb hands to `_request`; `None` is an omitted keyword argument. */
  datatype RequestSpec = RequestSpec(verb: Method, path: Path, params: Option<map<string, Value>>, body: Option<Value>)

  /** One call of a `HubSpotClient` resource verb with the arguments it received. Python does not
      enforce the annotated argument types, so every argument is an arbitrary JSON value. */
  datatype ClientCall =
    | GetContacts(limit: Value, properties: Value)
    | GetContact(contactId: Value)
    | CreateContact(properties: Value)
    | UpdateContact(contactId: Value, properties: Value)
    | DeleteContact(contactId: Value)
    | GetCompanies(limit: Value, properties: Value)
    | GetCompany(companyId: Value)
    | CreateCompany(properties: Value)
    | UpdateCompany(companyId: Value, properties: Value)
    | GetDeals(limit: Value, properties: Value)
    | GetDeal(dealId: Value)
    | CreateDeal(properties: Value)
    | Search(objectType: Value, filters: seq<Value>, limit: Value)

  const ObjectsRoot := "/crm/v3/objects/"
  const DefaultLimit := 100
  const JoinOperation := "join"

  /** `str(v)` for the values that can be interpolated into a path; containers (printed with
      Python's `repr`) are not rendered. */
  function ArgText(v: Value): (r: Option<string>)
    ensures r.Some? <==> !v.Arr? && !v.Obj?
    ensures v.Str? ==> r == Some(v.s)
    ensures v.Null? ==> r == Some("None")
    ensures v.Bool? ==> r == Some(if v.b then "True" else "False")
    ensures v.Int? ==> |r.value| > 0 && (v.n < 0 <==> r.value[0] == '-')
    ensures v.Int? ==> Text.SignedValue(r.value) == v.n
    ensures v.Int? && v.n >= 0 ==> Text.IsNumeral(r.value)
    ensures v.Int? && v.n < 0 ==> Text.IsNumeral(r.value[1..]) && r.value[1] != '0'
  {
    match v
    case Str(s) => Some(s)
    case Int(n) => Some(Text.IntText(n))
    case Bool(b) => Some(if b then "True" else "False")
    case Null => Some("None")
    case _ => None
  }

  function SegmentText(s: Segment): Option<string> {
    match s
    case Lit(t) => Some(t)
    case Arg(v) => ArgText(v)
  }

  /** The text of a path when every interpolated argument can be rendered. */
  function PathText(p: Path): (r: Option<string>)
    ensures r.Some? <==> forall i :: 0 <= i < |p| ==> SegmentText(p[i]).Some?
    ensures |p| > 0 && r.Some? ==> |SegmentText(p[0]).value| <= |r.value| && r.value[..|SegmentText(p[0]).value|] == SegmentText(p[0]).value
    decreases |p|
  {
    if |p| == 0 then Some("")
    else if |p| == 1 then SegmentText(p[0])
    else
      var head := SegmentText(p[0]);
      var tail := PathText(p[1..]);
      assert forall i :: 1 <= i < |p| ==> p[i] == p[1..][i - 1];
      if head.Some? && tail.Some? then Some(head.value + tail.value) else None
  }

  /** The strings `",".join(v)` iterates over: the elements of a list of strings, or the characters
      of a string. Any other value makes `join` raise `TypeError`. */
  function JoinedParts(v: Value): (r: Option<seq<string>>)
    ensures v.Str? ==> r.Some? && |r.value| == |v.s| && forall i :: 0 <= i < |v.s| ==> r.value[i] == [v.s[i]]
    ensures v.Arr? ==> (r.Some? <==> forall i :: 0 <= i < |v.items| ==> v.items[i].Str?)
    ensures r.Some? && v.Arr? ==> |r.value| == |v.items| && forall i :: 0 <= i < |v.items| ==> r.value[i] == v.items[i].s
    ensures !v.Str? && !v.Arr? ==> r.None?
  {
    match v
    case Str(s) => Some(seq(|s|, i requires 0 <= i < |s| => [s[i]]))
    case Arr(items) =>
      if forall i :: 0 <= i < |items| ==> items[i].Str? then Some(seq(|items|, i requires 0 <= i < |items| => items[i].s))
      else None
    case _ => None
  }

  /** The query of a list verb: `{limit}`, plus `properties` comma-joined when the argument is truthy. */
  function ListParams(limit: Value, properties: Value): (r: Result<map<string, Value>, Error>)
    ensures r.Failure? <==> Truthy(properties) && JoinedParts(properties).None?
    ensures r.Failure? ==> r.error == TypeMismatch(JoinOperation)
    ensures r.Success? ==> r.value.Keys == {"limit"} + (if Truthy(properties) then {"properties"} else {})
    ensures r.Success? ==> r.value["limit"] == limit
    ensures r.Success? && Truthy(properties) ==>
      r.value["properties"] == Str(Text.Join(JoinedParts(properties).value, ","))
  {
    var params := map["limit" := limit];
    if !Truthy(properties) then Success(params)
    else match JoinedParts(properties)
      case Some(parts) => Success(params["properties" := Str(Text.Join(parts, ","))])
      case None => Failure(TypeMismatch(JoinOperation))
  }

  /** `get_contacts`, `get_companies`, `get_deals`. */
  function ListRequest(collection: string, limit: Value, properties: Value): (r: Result<RequestSpec, Error>)
    ensures r.Failure? <==> ListParams(limit, properties).Failure?
    ensures r.Success? ==> r.value.verb == GET && r.value.body.None?
    ensures r.Success? ==> PathText(r.value.path) == Some(ObjectsRoot + collection)
    ensures r.Success? ==> r.value.params == Some(ListParams(limit, properties).value)
  {
    var params :- ListParams(limit, properties);
    var path := [Lit(ObjectsRoot + collection)];
    assert path[1..] == [];
    Success(RequestSpec(GET, path, Some(params), None))
  }

  /** The path of one object: the collection path, a slash and the interpolated id. */
  function ItemPath(collection: string, id: Value): (p: Path)
    ensures ArgText(id).Some? ==> PathText(p) == Some(ObjectsRoot + collection + "/" + ArgText(id).value)
    ensures PathText(p).Some? <==> ArgText(id).Some?
  {
    var p := [Lit(ObjectsRoot + collection + "/"), Arg(id)];
    assert p[1..] == [Arg(id)] && p[1..][1..] == [];
    p
  }

  /** `get_contact`, `get_company`, `get_deal`. */
  function GetRequest(collection: string, id: Value): (r: RequestSpec)
    ensures r.verb == GET && r.params.None? && r.body.None?
    ensures ArgText(id).Some? ==> PathText(r.path) == Some(ObjectsRoot + collection + "/" + ArgText(id).value)
  {
    RequestSpec(GET, ItemPath(collection, id), None, None)
  }

  /** `delete_contact`. */
  function DeleteRequest(collection: string, id: Value): (r: RequestSpec)
    ensures r.verb == DELETE && r.params.None? && r.body.None?
    ensures ArgText(id).Some? ==> PathText(r.path) == Some(ObjectsRoot + collection + "/" + ArgText(id).value)
  {
    RequestSpec(DELETE, ItemPath(collection, id), None, None)
  }

  /** The body of a create or update: `properties` wrapped, unchanged, under one key. */
  function PropertiesBody(properties: Value): (b: Value)
    ensures b.Obj? && b.fields.Keys == {"properties"} && b.fields["properties"] == properties
  {
    Obj(map["properties" := properties])
  }

  /** `create_contact`, `create_company`, `create_deal`. */
  function CreateRequest(collection: string, properties: Value): (r: RequestSpec)
    ensures r.verb == POST && r.params.None? && r.body == Some(PropertiesBody(properties))
    ensures PathText(r.path) == Some(ObjectsRoot + collection)
  {
    var path := [Lit(ObjectsRoot + collection)];
    assert path[1..] == [];
    RequestSpec(POST, path, None, Some(PropertiesBody(properties)))
  }

  /** `update_contact`, `update_company`. */
  function UpdateRequest(collection: string, id: Value, properties: Value): (r: RequestSpec)
    ensures r.verb == PATCH && r.params.None? && r.body == Some(PropertiesBody(properties))
    ensures ArgText(id).Some? ==> PathText(r.path) == Some(ObjectsRoot + collection + "/" + ArgText(id).value)
  {
    RequestSpec(PATCH, ItemPath(collection, id), None, Some(PropertiesBody(properties)))
  }

  /** The search body: all filters in one filter group, and the limit. */
  function SearchBody(filters: seq<Value>, limit: Value): (b: Value)
    ensures b.Obj? && b.fields.Keys == {"filterGroups", "limit"} && b.fields["limit"] == limit
    ensures b.fields["filterGroups"].Arr? && |b.fields["filterGroups"].items| == 1
    ensures b.fields["filterGroups"].items[0] == Obj(map["filters" := Arr(filters)])
  {
    Obj(map["filterGroups" := Arr([Obj(map["filters" := Arr(filters)])]), "limit" := limit])
  }

  /** `search`. */
  function SearchRequest(objectType: Value, filters: seq<Value>, limit: Value): (r: RequestSpec)
    ensures r.verb == POST && r.params.None? && r.body == Some(SearchBody(filters, limit))
    ensures ArgText(objectType).Some? ==> PathText(r.path) == Some(ObjectsRoot + ArgText(objectType).value + "/search")
  {
    var path := [Lit(ObjectsRoot), Arg(objectType), Lit("/search")];
    assert path[1..] == [Arg(objectType), Lit("/search")] && path[1..][1..] == [Lit("/search")];
    assert ArgText(objectType).Some? ==> PathText(path[1..]) == Some(ArgText(objectType).value + "/search");
    assert ArgText(objectType).Some? ==>
      ObjectsRoot + (ArgText(objectType).value + "/search") == ObjectsRoot + ArgText(objectType).value + "/search";
    RequestSpec(POST, path, None, Some(SearchBody(filters, limit)))
  }

  /** The path names the object `id` of `collection`, whenever `id` can be rendered. */
  predicate ItemAt(p: Path, collection: string, id: Value) {
    ArgText(id).Some? ==> PathText(p) == Some(ObjectsRoot + collection + "/" + ArgText(id).value)
  }

  /** What HubSpot is asked for by each verb: the method, the rendered path, the query and the body. */
  predicate Describes(call: ClientCall, spec: RequestSpec) {
    match call
    case GetContacts(limit, properties) => ListAt(spec, "contacts", limit, properties)
    case GetCompanies(limit, properties) => ListAt(spec, "companies", limit, properties)
    case GetDeals(limit, properties) => ListAt(spec, "deals", limit, properties)
    case GetContact(id) => spec.verb == GET && ItemAt(spec.path, "contacts", id)
    case GetCompany(id) => spec.verb == GET && ItemAt(spec.path, "companies", id)
    case GetDeal(id) => spec.verb == GET && ItemAt(spec.path, "deals", id)
    case DeleteContact(id) => spec.verb == DELETE && ItemAt(spec.path, "contacts", id)
    case CreateContact(properties) => CreateAt(spec, "contacts", properties)
    case CreateCompany(properties) => CreateAt(spec, "companies", properties)
    case CreateDeal(properties) => CreateAt(spec, "deals", properties)
    case UpdateContact(id, properties) =>
      spec.verb == PATCH && spec.body == Some(PropertiesBody(properties)) && ItemAt(spec.path, "contacts", id)
    case UpdateCompany(id, properties) =>
      spec.verb == PATCH && spec.body == Some(PropertiesBody(properties)) && ItemAt(spec.path, "companies", id)
    case Search(objectType, filters, limit) =>
      && spec.verb == POST
      && spec.body == Some(SearchBody(filters, limit))
      && (ArgText(objectType).Some? ==> PathText(spec.path) == Some(ObjectsRoot + ArgText(objectType).value + "/search"))
  }

  predicate ListAt(spec: RequestSpec, collection: string, limit: Value, properties: Value) {
    && spec.verb == GET
    && PathText(spec.path) == Some(ObjectsRoot + collection)
    && ListParams(limit, properties).Success?
    && spec.params == Some(ListParams(limit, properties).value)
  }

  predicate CreateAt(spec: RequestSpec, collection: string, properties: Value) {
    && spec.verb == POST
    && spec.body == Some(PropertiesBody(properties))
    && PathText(spec.path) == Some(ObjectsRoot + collection)
  }

  predicate IsList(call: ClientCall) {
    call.GetContacts? || call.GetCompanies? || call.GetDeals?
  }

  /** The request a verb call issues; only the list verbs can fail, when `join` rejects `properties`. */
  function Spec(call: ClientCall): (r: Result<RequestSpec, Error>)
    ensures r.Success? ==> (r.value.body.Some? <==> r.value.verb == POST || r.value.verb == PATCH)
    ensures r.Failure? <==> IsList(call) && ListParams(call.limit, call.properties).Failure?
    ensures r.Success? ==> (r.value.params.Some? <==> IsList(call))
    ensures r.Success? ==> (r.value.verb == GET <==> IsList(call) || call.GetContact? || call.GetCompany? || call.GetDeal?)
  {
    match call
    case GetContacts(limit, properties) => ListRequest("contacts", limit, properties)
    case GetContact(id) => Success(GetRequest("contacts", id))
    case CreateContact(properties) => Success(CreateRequest("contacts", properties))
    case UpdateContact(id, properties) => Success(UpdateRequest("contacts", id, properties))
    case DeleteContact(id) => Success(DeleteRequest("contacts", id))
    case GetCompanies(limit, properties) => ListRequest("companies", limit, properties)
    case GetCompany(id) => Success(GetRequest("companies", id))
    case CreateCompany(properties) => Success(CreateRequest("companies", properties))
    case UpdateCompany(id, properties) => Success(UpdateRequest("companies", id, properties))
    case GetDeals(limit, properties) => ListRequest("deals", limit, properties)
    case GetDeal(id) => Success(GetRequest("deals", id))
    case CreateDeal(properties) => Success(CreateRequest("deals", properties))
    case Search(objectType, filters, limit) => Success(SearchRequest(objectType, filters, limit))
  }

  /** Every verb issues the request its HubSpot endpoint expects. */
  lemma {:induction false} SpecDescribes(call: ClientCall)
    ensures Spec(call).Success? ==> Describes(call, Spec(call).value)
  {
  }

  /** A list verb given a list of property names: the `properties` parameter is present exactly
      when the list is non-empty, and when no name contains a comma it splits back into the list. */
  lemma ListPropertiesRecoverable(collection: string, limit: Value, names: seq<string>)
    ensures ListRequest(collection, limit, Strs(names)).Success?
    ensures var q := ListRequest(collection, limit, Strs(names)).value.params.value;
      && ("properties" in q <==> |names| > 0)
      && (|names| > 0 && (forall i :: 0 <= i < |names| ==> ',' !in names[i]) ==>
            q["properties"].Str? && Text.Split(q["properties"].s, ',') == names)
  {
    var v := Strs(names);
    if |names| > 0 && forall i :: 0 <= i < |names| ==> ',' !in names[i] {
      assert JoinedParts(v).value == names;
      Text.SplitJoin(names, ',');
    }
  }
}

=== FILE: scenarios.dfy ===
/** Concrete calls worked through the model, one per behaviour the repository's tests assert. */
module Scenarios {
  import opened Wrappers
  import opened Json
  import opened Errors
  import opened Auth
  import opened Requests
  import opened Transport
  import opened Handlers
  import opened Registry
  import opened Dispatcher

  const Base := "https://api.hubapi.com"

  /** An access token alone, or together with an API key, is sent as the bearer credential and
      never in the query; an API key alone is sent both ways. */
  lemma CredentialPrecedence()
    ensures Headers(Config(None, Some("test_token"), Base))[Authorization] == "Bearer test_token"
    ensures Headers(Config(Some("test_key"), Some("test_token"), Base))[Authorization] == "Bearer test_token"
    ensures QueryParams(Config(Some("test_key"), Some("test_token"), Base), None) == None
    ensures Headers(Config(Some("test_key"), None, Base))[Authorization] == "Bearer test_key"
    ensures QueryParams(Config(Some("test_key"), None, Base), None) == Some(map[KeyParam := Str("test_key")])
    ensures Authorization !in Headers(Config(Some(""), Some(""), Base))
  {
  }

  /** `get_contacts(limit=10)` asks for the contacts collection with `{limit: 10}` only. */
  lemma ListContactsWithLimit()
    ensures Spec(GetContacts(Int(10), Null)) ==
      Success(RequestSpec(GET, [Lit("/crm/v3/objects/contacts")], Some(map["limit" := Int(10)]), None))
  {
    assert ObjectsRoot + "contacts" == "/crm/v3/objects/contacts";
    assert ListParams(Int(10), Null) == Success(map["limit" := Int(10)]);
  }

  /** `create_contact` with only shorthand fields sends exactly those fields. */
  lemma CreateContactFromShorthand()
    ensures Bind(CreateContactTool, map["email" := Str("a@b.com"), "firstname" := Str("X")]) ==
      Success(CreateContact(Obj(map["email" := Str("a@b.com"), "firstname" := Str("X")])))
  {
  }

  /** A shorthand field overwrites the same key of the explicit `properties` map; other keys stay. */
  lemma CreateContactShorthandOverrides()
    ensures Bind(CreateContactTool, map[
        "email" := Str("a@b.com"),
        "properties" := Obj(map["email" := Str("old@b.com"), "lastname" := Str("Y")])]) ==
      Success(CreateContact(Obj(map["email" := Str("a@b.com"), "lastname" := Str("Y")])))
  {
    var fields := map["email" := Str("old@b.com"), "lastname" := Str("Y")];
    var args := map["email" := Str("a@b.com"), "properties" := Obj(fields)];
    var merged := Obj(map["email" := Str("a@b.com"), "lastname" := Str("Y")]);
    assert Get(args, "properties", Obj(map[])) == Obj(fields);
    assert ContactShorthand[1..] == ["firstname", "lastname"] && ContactShorthand[1..][1..] == ["lastname"];
    assert "firstname" !in args && "lastname" !in args;
    assert fields["email" := Str("a@b.com")] == merged.fields;
    assert MergeShorthand(merged, args, ["lastname"]) == Success(merged);
    assert MergeShorthand(merged, args, ["firstname", "lastname"]) == Success(merged);
  }

  /** Deleting a contact is a DELETE on its path, and the 204 answer becomes the fixed success value. */
  lemma DeleteContactNoContent(body: Value)
    ensures Spec(DeleteContact(Str("123"))).value.verb == DELETE
    ensures PathText(Spec(DeleteContact(Str("123"))).value.path) == Some("/crm/v3/objects/contacts/123")
    ensures Normalise(Ok(204, body)) == Success(NoContentResult())
  {
    assert ObjectsRoot + "contacts" + "/" + "123" == "/crm/v3/objects/contacts/123";
  }

  /** The search tool with an explicit `EQ` operator and no limit: one filter, limit 100. */
  lemma SearchByEmail()
    ensures Bind(SearchTool, map[
        "object_type" := Str("contacts"), "property" := Str("email"), "value" := Str("test@example.com"),
        "operator" := Str("EQ")]) ==
      Success(Search(Str("contacts"),
        [Obj(map["propertyName" := Str("email"), "operator" := Str("EQ"), "value" := Str("test@example.com")])], Int(100)))
  {
  }

  /** An unknown tool name is rejected before any envelope, whatever the transport would do. */
  lemma UnknownToolRejected(c: Config, send: HttpRequest -> Outcome)
    ensures HandleToolCall(NewServer(c), "unknown_tool", map[], send) == UnknownTool("Unknown tool: unknown_tool")
  {
    UnknownToolNotFound();
    var server := NewServer(c);
    assert server == Server(NewClient(c), Tools());
    var d := HandleToolCall(server, "unknown_tool", map[], send);
    assert d == UnknownTool(UnknownToolPrefix + "unknown_tool");
    UnknownToolMessage();
  }

  lemma UnknownToolMessage()
    ensures UnknownToolPrefix + "unknown_tool" == "Unknown tool: unknown_tool"
  {
  }

  lemma UnknownToolNotFound()
    ensures Lookup(Tools(), "unknown_tool").None?
  {
    CatalogueShape();
    var names := Names(Tools());
    assert forall i :: 0 <= i < |names| ==> names[i] != "unknown_tool";
  }

  /** A transport failure while listing contacts comes back as a failed envelope carrying it. */
  lemma TransportFailureEnveloped(c: Config)
    ensures HandleToolCall(NewServer(c), "list_contacts", map["limit" := Int(10)], (req: HttpRequest) => Fail("API Error")).envelope
      == Failed(Transport("API Error"))
  {
    CatalogueShape();
  }

  /** `get_contact` without `contact_id` fails inside the envelope and sends nothing. */
  lemma GetContactWithoutId(c: Config, send: HttpRequest -> Outcome)
    ensures HandleToolCall(NewServer(c), "get_contact", map[], send) == Answered(Failed(MissingKey("contact_id")), None)
  {
    CatalogueShape();
  }
}

=== FILE: text.dfy ===
/** String helpers: Python's `sep.join(parts)`, its inverse for a one-character
    separator, and `str()` of the scalar values that can appear inside a path. */
module Text {

  /** `sep.join(parts)`. */
  function Join(parts: seq<string>, sep: string): string
    decreases |parts|
  {
    if |parts| == 0 then ""
    else if |parts| == 1 then parts[0]
    else parts[0] + sep + Join(parts[1..], sep)
  }

  /** `s.split(sep)` for a one-character separator: the pieces between separators, never empty as a list. */
  function Split(s: string, sep: char): (r: seq<string>)
    ensures |r| > 0
    ensures forall i :: 0 <= i < |r| ==> sep !in r[i]
    decreases |s|
  {
    if |s| == 0 then [""]
    else
      var rest := Split(s[1..], sep);
      if s[0] == sep then [""] + rest
      else [[s[0]] + rest[0]] + rest[1..]
  }

  lemma {:induction false} SplitWithoutSeparator(p: string, sep: char)
    requires sep !in p
    ensures Split(p, sep) == [p]
    decreases |p|
  {
    if |p| > 0 {
      SplitWithoutSeparator(p[1..], sep);
      assert [p[0]] + p[1..] == p;
    }
  }

  lemma {:induction false} SplitAtSeparator(p: string, sep: char, t: string)
    requires sep !in p
    ensures Split(p + [sep] + t, sep) == [p] + Split(t, sep)
    decreases |p|
  {
    var s := p + [sep] + t;
    if |p| == 0 {
      assert s[1..] == t;
    } else {
      assert s[1..] == p[1..] + [sep] + t;
      SplitAtSeparator(p[1..], sep, t);
      assert [p[0]] + p[1..] == p;
    }
  }

  /** Joining with a one-character separator loses nothing when no part contains it. */
  lemma {:induction false} SplitJoin(parts: seq<string>, sep: char)
    requires |parts| > 0
    requires forall i :: 0 <= i < |parts| ==> sep !in parts[i]
    ensures Split(Join(parts, [sep]), sep) == parts
    decreases |parts|
  {
    if |parts| == 1 {
      SplitWithoutSeparator(parts[0], sep);
    } else {
      SplitJoin(parts[1..], sep);
      SplitAtSeparator(parts[0], sep, Join(parts[1..], [sep]));
      assert [parts[0]] + parts[1..] == parts;
    }
  }

  function DigitChar(d: nat): (c: char)
    requires d < 10
    ensures '0' <= c <= '9' && c as int - '0' as int == d
  {
    ('0' as int + d) as char
  }

  predicate IsDigit(c: char) {
    '0' <= c <= '9'
  }

  /** A decimal numeral as Python prints one: digits only, and no leading zero except in "0". */
  predicate IsNumeral(s: string) {
    && |s| > 0
    && (forall i :: 0 <= i < |s| ==> IsDigit(s[i]))
    && (s[0] == '0' ==> |s| == 1)
  }

  /** The value of a string of decimal digits, read most significant digit first. */
  function DecimalValue(s: string): int
    decreases |s|
  {
    if |s| == 0 then 0 else 10 * DecimalValue(s[..|s| - 1]) + (s[|s| - 1] as int - '0' as int)
  }

  /** The value of an optionally signed numeral. */
  function SignedValue(s: string): int {
    if |s| > 0 && s[0] == '-' then -DecimalValue(s[1..]) else DecimalValue(s)
  }

  /** Decimal digits of a natural number, as `str(n)` prints them. */
  function NatText(n: nat): (r: string)
    ensures IsNumeral(r)
    ensures r[0] == '0' <==> n == 0
    decreases n
  {
    if n < 10 then [DigitChar(n)] else NatText(n / 10) + [DigitChar(n % 10)]
  }

  /** Reading back the digits of `n` gives `n`. */
  lemma {:induction false} NatTextValue(n: nat)
    ensures DecimalValue(NatText(n)) == n
    decreases n
  {
    var r := NatText(n);
    if n < 10 {
      assert r[..|r| - 1] == [];
    } else {
      NatTextValue(n / 10);
      assert r[..|r| - 1] == NatText(n / 10);
    }
  }

  /** `str(i)` for a Python int: a minus sign exactly for negative numbers, then the numeral of the
      magnitude; reading it back gives `i`. */
  function IntText(i: int): (r: string)
    ensures |r| > 0 && (i < 0 <==> r[0] == '-')
    ensures i < 0 ==> IsNumeral(r[1..]) && r[1] != '0'
    ensures i >= 0 ==> IsNumeral(r)
    ensures SignedValue(r) == i
  {
    if i < 0 then
      NatTextValue(-i);
      assert ("-" + NatText(-i))[1..] == NatText(-i);
      "-" + NatText(-i)
    else
      NatTextValue(i);
      NatText(i)
  }
}

=== FILE: transport.dfy ===
/** `HubSpotClient._request` with the HTTP exchange abstracted: a prepared request goes to the
    transport, whose outcome is normalised into a value or an error. */
module Transport {
  import opened Wrappers
  import opened Json
  import opened Errors
  import opened Auth
  import opened Requests

  /** The client state fixed at construction: the configuration, its base URL and the default headers. */
  datatype Client = Client(config: Config, baseUrl: string, headers: map<string, string>)

  /** One outgoing HTTP request. The URL is kept as the (base, path) pair `urljoin` combines. */
  datatype HttpRequest = HttpRequest(
    verb: Method,
    baseUrl: string,
    path: Path,
    headers: map<string, string>,
    params: Option<map<string, Value>>,
    body: Option<Value>)

  /** What the transport reports: a response with its status and decoded body, or a failure
      before any status was received. */
  datatype Outcome = Ok(status: int, body: Value) | Fail(message: string)

  const NoContent := 204
  const NoContentMessage := "Operation completed successfully"

  /** `HubSpotClient.__init__`: headers are resolved once, from the configuration. */
  function NewClient(c: Config): (cl: Client)
    ensures cl.config == c && cl.baseUrl == c.baseUrl
    ensures cl.headers == Headers(c)
    ensures Authorization in cl.headers <==> Given(c.accessToken) || Given(c.apiKey)
    ensures Authorization in cl.headers ==> ParseBearer(cl.headers[Authorization]) == Credential(c)
  {
    Client(c, c.baseUrl, Headers(c))
  }

  /** The request `_request` issues for a verb's spec: same method, path and body, the client's
      headers, and the query with the API key added when it is the credential in use. */
  function Prepare(cl: Client, spec: RequestSpec): (req: HttpRequest)
    ensures req.verb == spec.verb && req.path == spec.path && req.body == spec.body
    ensures req.baseUrl == cl.baseUrl && req.headers == cl.headers
    ensures !KeyInQuery(cl.config) ==> req.params == spec.params
    ensures req.params == QueryParams(cl.config, spec.params)
    ensures KeyInQuery(cl.config) ==> req.params.Some? && KeyParam in req.params.value && req.params.value[KeyParam] == Str(cl.config.apiKey.value)
    ensures KeyInQuery(cl.config) ==> forall k :: k != KeyParam ==>
      (k in req.params.value <==> spec.params.Some? && k in spec.params.value)
  {
    HttpRequest(spec.verb, cl.baseUrl, spec.path, cl.headers, QueryParams(cl.config, spec.params), spec.body)
  }

  /** The fixed value a 204 No Content response (section 15.3.5 of RFC 9110) is replaced with. */
  function NoContentResult(): (v: Value)
    ensures v.Obj? && v.fields.Keys == {"success", "message"}
    ensures v.fields["success"] == Bool(true) && v.fields["message"] == Str(NoContentMessage)
  {
    Obj(map["success" := Bool(true), "message" := Str(NoContentMessage)])
  }

  predicate IsSuccessStatus(status: int) {
    200 <= status <= 299
  }

  /** `raise_for_status` then the 204 special case: any status outside 2xx is an error carrying the
      status and body; 204 gives the fixed success value; every other 2xx body is returned unchanged. */
  function Normalise(o: Outcome): (r: Result<Value, Error>)
    ensures r.Success? <==> o.Ok? && IsSuccessStatus(o.status)
    ensures o.Fail? ==> r == Failure(Transport(o.message))
    ensures o.Ok? && !IsSuccessStatus(o.status) ==> r == Failure(HttpStatus(o.status, o.body))
    ensures o.Ok? && o.status == NoContent ==> r == Success(NoContentResult())
    ensures o.Ok? && IsSuccessStatus(o.status) && o.status != NoContent ==> r == Success(o.body)
  {
    match o
    case Fail(message) => Failure(Transport(message))
    case Ok(status, body) =>
      if !IsSuccessStatus(status) then Failure(HttpStatus(status, body))
      else if status == NoContent then Success(NoContentResult())
      else Success(body)
  }

  /** Only a 204 changes a successful body: the value returned differs from the body received
      exactly when the status is 204 and the body was not already the fixed value. */
  lemma NormaliseChangesOnlyNoContent(status: int, body: Value)
    requires IsSuccessStatus(status)
    ensures Normalise(Ok(status, body)).value != body <==> status == NoContent && body != NoContentResult()
  {
  }
}

=== FILE: wrappers.dfy ===
/** Optional values and results with an error channel, the model's stand-in for
    Python's `None` and for raised exceptions. */
module Wrappers {

  datatype Option<+T> = None | Some(value: T) {

    /** The encapsulated value, or `default` for `None`. */
    function GetOr(default: T): T {
      match this
      case Some(v) => v
      case None => default
    }
  }

  /** A value, or the error an operation would have raised. Failure-compatible, so `:-` propagates the error. */
  datatype Result<+T, +E> = Success(value: T) | Failure(error: E) {

    predicate IsFailure() {
      Failure?
    }

    function PropagateFailure<U>(): Result<U, E>
      requires Failure?
    {
      Failure(error)
    }

    function Extract(): T
      requires Success?
    {
      value
    }
  }
}
